=== FILE: README.md ===
# Shared-folder authorization store, modelled in Dafny

This project models the authorization store of the Qubes shared-folders
service. One virtual machine (the source) asks to reach a folder on another
machine (the target). The store remembers the answers: which folder, for
which machine pair, with which of five responses. It resolves new requests
against those answers by path containment and a ranking rule. It makes
one-time answers single-use. It also keeps a directory of per-permission
policy files in step with the decisions, because the inter-VM RPC dispatcher
reads that directory.

Modules, one per component of `py/sharedfolders/__init__.py`:

- `Responses` (`responses.dfy`): the five responses. It defines the
  name-derived predicates `IsAllow`, `IsOnetime` and `IsBlock`, and the
  partial parser `FromString`.
- `Paths` (`paths.dfy`): `Contains`, the textual containment test that
  appends a trailing separator to both paths.
- `Fingerprints` (`fingerprints.dfy`): the digest input, which is each field
  followed by a NUL, and the truncation to 32 characters. The SHA-256 hex
  digest is the parameter `hash`.
- `Matrices` (`matrix.dfy`): `Decision`, and the matrix as an
  insertion-ordered dictionary. Assigning to a key that is already present
  keeps its position. A new key is appended. Deleting a key closes the gap.
- `Ranking` (`ranking.dfy`): the stable sort by folder length, the reversal,
  and the scan that stops at the first allow-type match.
- `Policy` (`policy.dfy`): `GrantFor`, `RevokeFor` and the reconciliation
  `ApplyPolicyChangesFrom`. The policy directory is a map from fingerprint to
  file contents.
- `DecisionStore` (`store.dfy`): the matrix operations. Each one is a pure
  transition on `Store(matrix, policy)` and returns its result with the new
  store. `save` would write the matrix to disk after each change; here the
  matrix is that on-disk copy.
- `Scenarios` (`scenarios.dfy`): properties of sequences of operations.

Two behaviours of the code are worth stating, and the model follows the
code in both:

- The docstring of `lookup_decision` (`py/sharedfolders/__init__.py:150`)
  says decisions are looked up "from most specific to least specific". That
  holds for allow-type matches: the longest one wins. When no match is
  allow-type, the scan at lines 163-167 runs to the end of the list, which
  is sorted longest first. So the lookup returns a match with the
  *shortest* folder, the least specific one.
- `lookup_prior_authorization` (lines 179-185) never reports a one-time
  decision. Suppose ALLOW_ONETIME is recorded for a folder of absolute
  shape (a leading `/`, and no trailing `/` unless it is the root) in a
  matrix whose entries all sit under their own fingerprints and have
  folders of that shape. Then the next prior-authorization request for the
  same triple consumes the decision and answers *nothing*
  (`Scenarios.OnetimeGrantIsConsumed`). Both conditions are needed. Take a
  matrix that holds ALLOW_ALWAYS for the folder `"/a/"`, which has a trailing `/`, and
  record ALLOW_ONETIME for `"/a"`. The lookup then prefers the longer
  `"/a/"`, answers ALLOW_ALWAYS, and leaves the one-time grant in place.
  The conditions are about other entries only: from an empty store, a
  one-time grant for any folder string is consumed the same way
  (`Scenarios.OnetimeGrantFromEmptyStore`).

The model also shows that a BLOCK only adds a root-level DENY_ALWAYS. It
removes nothing else, and allow-type matches win the ranking. The comment at
`py/sharedfolders/__init__.py:195-197` says a BLOCK is meant to "block
absolutely everything". Yet a folder other than the root, granted
ALLOW_ALWAYS earlier under a fingerprint that differs from the root's, is
still granted after a BLOCK for the same pair
(`Scenarios.BlockKeepsEarlierAllow`). A grant of the root folder itself is
overwritten by the BLOCK, because both are stored under the root's
fingerprint.

## Model

| member | source | states |
|---|---|---|
| Responses.IsAllow | py/sharedfolders/__init__.py:27-28 | a response grants access exactly when it is ALLOW_ONETIME or ALLOW_ALWAYS |
| Responses.IsOnetime | py/sharedfolders/__init__.py:30-31 | a response is single-use exactly when it is ALLOW_ONETIME or DENY_ONETIME |
| Responses.IsBlock | py/sharedfolders/__init__.py:33-34 | only BLOCK is a block |
| Responses.FromString | py/sharedfolders/__init__.py:36-44 | a successful parse returns the response with that exact name; a failure carries the input string, and no response has that name |
| Responses.FromStringName | py/sharedfolders/__init__.py:36-52 | parsing the name of each of the five responses gives back that response |
| Responses.NameInjective | py/sharedfolders/__init__.py:47-52 | the five responses have five distinct names |
| Responses.Name | py/sharedfolders/__init__.py:47-52 | each response's name is a non-empty upper-case identifier, the attribute under which the responses class holds it; `NameInjective` and `FromStringName` show the names are distinct and parse back |
| Paths.WithTrailingSep | py/sharedfolders/__init__.py:62-65 | the result ends with the separator and extends the path; the separator is added exactly when the path does not already end with one |
| Paths.Contains | py/sharedfolders/__init__.py:58-70 | every path contains itself; the root contains every absolute path |
| Paths.ContainsIff | py/sharedfolders/__init__.py:58-70 | on paths of absolute shape, containment holds exactly for the same path, for the root, or for a proper prefix followed by a separator |
| Paths.ContainsLength | py/sharedfolders/__init__.py:58-70 | a containing folder is never longer than the folder it contains, and one of equal length is the same folder |
| Paths.ContainsTransitive | py/sharedfolders/__init__.py:58-70 | containment is transitive |
| Paths.SeparatorMatters | py/sharedfolders/__init__.py:62-69 | "/ab" is not inside "/a", while "/a/b" is |
| Fingerprints.DigestInput | py/sharedfolders/__init__.py:74-80 | the digest input is three characters longer than the three fields together, starts with the source name and its NUL, and ends with a NUL; `DigestInputInjective` shows it determines the triple |
| Fingerprints.Truncate | py/sharedfolders/__init__.py:81 | the result is a prefix of the input, of length 32 or less when the input is shorter |
| Fingerprints.FingerprintDecision | py/sharedfolders/__init__.py:73-81 | the fingerprint is a prefix of the digest of the NUL-separated triple, at most 32 characters long, and exactly 32 for a digest of 32 or more |
| Fingerprints.SplitAtNul | py/sharedfolders/__init__.py:74-78 | a NUL-free field followed by a NUL separator is recovered uniquely from the text |
| Fingerprints.DigestInputInjective | py/sharedfolders/__init__.py:74-80 | for NUL-free machine names, distinct triples give distinct digest inputs |
| Matrices.Get | py/sharedfolders/__init__.py:217 | a found decision is stored under the key; nothing is found exactly when the key is absent |
| Matrices.GetIff | py/sharedfolders/__init__.py:97 | in a dictionary with unique keys, lookup returns a decision exactly when that key/decision pair is stored |
| Matrices.Put | py/sharedfolders/__init__.py:202 | assignment adds the key; a new key is appended, and an existing key keeps its position |
| Matrices.GetPut | py/sharedfolders/__init__.py:202 | after assignment the key maps to the new decision, and every other key maps to what it did before |
| Matrices.Remove | py/sharedfolders/__init__.py:143 | deletion keeps exactly the entries with other keys |
| Matrices.GetRemove | py/sharedfolders/__init__.py:143 | after deletion the key is absent, and every other key maps to what it did before |
| Ranking.InsertMultiset | py/sharedfolders/__init__.py:164 | one insertion step of the sort adds exactly the inserted match |
| Ranking.InsertAscending | py/sharedfolders/__init__.py:164 | inserting into a list sorted by folder length keeps it sorted |
| Ranking.SortByFolderLength | py/sharedfolders/__init__.py:164 | the sort orders the matches by ascending folder length and is a permutation of them |
| Ranking.Reverse | py/sharedfolders/__init__.py:163-165 | reversal puts the elements in the opposite order, so ascending becomes descending, and it is a permutation |
| Ranking.PickFirstAllow | py/sharedfolders/__init__.py:163-168 | on candidates sorted longest first, the scan returns a candidate; if any candidate is allow-type, it returns an allow-type one and no allow-type candidate is longer; otherwise no candidate is shorter |
| Ranking.Best | py/sharedfolders/__init__.py:162-168 | the same ranking guarantees hold for the matches in any order |
| Policy.PolicyLine | py/sharedfolders/__init__.py:242 | a created policy file holds the source name, a space, the target name, and ends with " allow" |
| Policy.GrantFor | py/sharedfolders/__init__.py:236-244 | a granted fingerprint afterwards has a file; an existing file is left as it was; a new file holds "<source> <target> allow" |
| Policy.RevokeFor | py/sharedfolders/__init__.py:246-254 | the fingerprint's file is gone afterwards, whether or not it existed, and no other file changes |
| Policy.SyncKeys | py/sharedfolders/__init__.py:256-265 | after the loop and the final sweep, the files are those of the allow-type entries plus the unlisted files of fingerprints not in the matrix |
| Policy.SyncContents | py/sharedfolders/__init__.py:256-265 | a file that survives keeps its contents; a file created by the loop holds the policy line of its entry |
| Policy.ApplyPolicyChangesFrom | py/sharedfolders/__init__.py:256-265 | afterwards there is a file exactly for each allow-type fingerprint of the matrix; files that already existed keep their contents; new files hold their decision's policy line |
| Policy.ApplyPolicyChangesIdempotent | py/sharedfolders/__init__.py:256-265 | reconciling a second time changes nothing |
| DecisionStore.IsMatch | py/sharedfolders/__init__.py:156-160 | a decision for the requested folder itself, or for the root folder when the request is absolute, applies exactly when the machine pair is the same |
| DecisionStore.MatchingEntries | py/sharedfolders/__init__.py:154-161 | the matches are exactly the entries for the same machine pair whose folder contains the requested one |
| DecisionStore.LookupDecision | py/sharedfolders/__init__.py:147-170 | a found decision is stored under the returned fingerprint and applies to the request; nothing is found exactly when no entry applies, and then the fingerprint is that of the requested triple; an applicable allow-type entry forces an allow-type answer with no longer allow-type match; without one, no match is shorter than the answer |
| DecisionStore.RevokeOnetime | py/sharedfolders/__init__.py:137-145 | the key is deleted exactly when it holds a one-time decision, and the policy files are then reconciled; otherwise the store is unchanged; other keys never change; every policy file that remains keeps its contents |
| DecisionStore.LookupPriorAuthorization | py/sharedfolders/__init__.py:172-185 | the answer is never one-time, and it is the response of a stored decision that applies to the request; a given answer leaves the store unchanged; afterwards no one-time decision remains under the fingerprint; other keys never change; every policy file that remains keeps its contents |
| DecisionStore.PriorAnswerFollowsLookup | py/sharedfolders/__init__.py:179-185 | the answer uses the lookup's fingerprint and is absent exactly when the lookup found nothing or a one-time decision, which is then consumed |
| DecisionStore.ProcessAuthorizationRequest | py/sharedfolders/__init__.py:187-205 | the decision is stored under the fingerprint of its own triple; a BLOCK is stored as DENY_ALWAYS on the root folder; other keys are unchanged; the policy files match the new matrix; files that remain keep their contents, and a new file for an allow-type response holds "<source> <target> allow"; no BLOCK is ever stored; well-formedness is kept when the folder has absolute shape, and for a BLOCK whatever the folder |
| DecisionStore.LookupDecisionFolder | py/sharedfolders/__init__.py:207-226 | the stored folder is returned exactly when the key is present and its folder contains the requested one; a one-time decision is consumed, yet still answers this call; otherwise the store is unchanged; every policy file that remains keeps its contents |
| Scenarios.ExactMatchIsRequestedTriple | py/sharedfolders/__init__.py:200-202 | in a well-formed matrix, a match as long as the request is the decision for the requested triple, under its fingerprint |
| Scenarios.StoredAllowAnswers | py/sharedfolders/__init__.py:162-167 | a stored allow-type decision that applies to a request forces an allow-type answer for it |
| Scenarios.ExactAllowWins | py/sharedfolders/__init__.py:154-168 | in a well-formed matrix, an allow-type decision stored for the exact requested triple is what the lookup returns, with its fingerprint |
| Scenarios.RecordedAllowCoversSubfolders | py/sharedfolders/__init__.py:154-168 | after an allow-type response is recorded, every request for a folder inside it resolves to an allow-type decision |
| Scenarios.OnetimeLookupConsumes | py/sharedfolders/__init__.py:179-185 | in a well-formed matrix holding ALLOW_ONETIME for the requested triple, the prior-authorization lookup answers nothing, deletes that key and changes no other key |
| Scenarios.OnetimeGrantIsConsumed | py/sharedfolders/__init__.py:179-185 | after recording ALLOW_ONETIME, the next prior-authorization lookup for that triple answers nothing, deletes the key, and leaves the rest of the matrix as before the grant |
| Scenarios.OnetimeGrantFromEmptyStore | py/sharedfolders/__init__.py:172-185 | from an empty store, a one-time grant for any folder string answers nothing when asked, and a second request finds no decision, gets the fingerprint of its triple, and leaves the matrix empty |
| Scenarios.SingleOnetimeConsumed | py/sharedfolders/__init__.py:179-185 | a matrix holding only an ALLOW_ONETIME decision for the requested triple, under any key, answers nothing and ends empty |
| Scenarios.EmptyMatrixAnswersNothing | py/sharedfolders/__init__.py:169-185 | with an empty matrix, a prior-authorization request answers nothing, offers the fingerprint of the requested triple, and leaves the matrix empty |
| Scenarios.RootDenyAnswers | py/sharedfolders/__init__.py:154-168 | in a well-formed matrix holding a pair's root DENY_ALWAYS, every request for the pair whose folder starts with `/` matches something, and without an allow-type match the answer is that root decision |
| Scenarios.BlockCoversEveryFolder | py/sharedfolders/__init__.py:194-202 | after a BLOCK for any folder string, recorded into a well-formed matrix, every request of that pair whose folder starts with `/` matches something; without an allow-type match the answer is the stored root DENY_ALWAYS |
| Scenarios.BlockKeepsEarlierAllow | py/sharedfolders/__init__.py:162-167 | a folder other than the root, whose fingerprint differs from the root's, granted ALLOW_ALWAYS still resolves to an allow-type decision after a later BLOCK for the same pair |
| Scenarios.BroaderAllowBeatsNarrowerDeny | py/sharedfolders/__init__.py:162-167 | a broader ALLOW_ALWAYS beats a narrower DENY_ALWAYS recorded after it |
| Scenarios.DocsExample | py/sharedfolders/__init__.py:58-70 | "/home/user/docs/private" is inside "/home/user/docs", and not the other way round |
| Scenarios.OnetimeFolderCheckAnswersOnce | py/sharedfolders/__init__.py:217-226 | a one-time grant answers the first folder check on the receiving side and no second one |

## Left out

- `DecisionMatrix.load` and `save` (lines 100-135): JSON encoding, file I/O, chmod and the atomic rename are not modelled. The matrix value stands for the on-disk copy. One rule is recorded here but not modelled: `load` returns an empty matrix on any failure, including an unknown response name.
- SHA-256: the hex digest is the parameter `hash`, an arbitrary function. Collision-freedom is not assumed. Lemmas that need two fingerprints to differ say so in their `requires`. UTF-8 encoding is not modelled: characters stand for their encodings, and that encoding is injective.
- `os.path.abspath`: `Contains` compares the paths as given. Resolving the working directory, `.`, `..`, empty segments and the `//` special case is not modelled. On paths with `.`, `..` or empty segments, the model's containment can differ from the implementation's. For example, the implementation says `"/a/b"` is inside `"/a/b/./."` and the model says it is not. The other way round, the model says `"/a/../b"` is inside `"/a"` and the implementation says it is not. The conditions of the `Scenarios` lemmas (`HasAbsoluteShape`, `WellFormed`) constrain only the outer shape of a path, so on such paths their conclusions do not carry over to the implementation.
- The policy-file name template, `glob`, `os.path.isfile` and `unlink` errors are not modelled. The directory is the map from fingerprint to contents of the files that match the template. Removing an absent file is a no-op. A `.tmp` leftover matched by the glob is not modelled.
- DecisionStore.LookupDecision: the contract does not say which of several matches of equal folder length is chosen. The function computes the implementation's order: a stable sort, then the reversal, then the scan. Among allow-type matches of equal length, the later-inserted one is returned. Without an allow-type match, the earliest-inserted of the shortest matches is returned. That tie-break is not proved.
- Logging, the module-level `ConnectToFolderPolicy` singleton, `Response.__repr__`, and object identity of responses are not modelled. Also left out: the failure of `from_string` on attribute names of the `RESPONSES` class that are not responses, which raises an assertion error instead of ValueError.
- Concurrent writers in separate processes, and the lost update between them, are not modelled. Filesystem failures that propagate as exceptions are not modelled either.

=== FILE: fingerprints.dfy ===
/**
 * Decision fingerprints. The SHA-256 hex digest is not modelled: it is the
 * parameter `hash`, an arbitrary deterministic function from the digest
 * input to its hex text. What is modelled is the digest input (the three
 * fields, each followed by a NUL) and the truncation to 32 characters.
 */
module Fingerprints {

  /** The hex digest of a text; SHA-256 in the implementation, left abstract. */
  type Hash = string -> string

  const Nul: char := 0 as char
  const FingerprintLength: nat := 32

  /** The text fed to the digest: each field followed by a NUL separator. */
  function DigestInput(source: string, target: string, folder: string): (r: string)
    ensures |r| == |source| + |target| + |folder| + 3
    ensures source + [Nul] <= r && r[|r| - 1] == Nul
  {
    source + [Nul] + target + [Nul] + folder + [Nul]
  }

  /** The first `n` characters of `s`, or all of it when it is shorter. */
  function Truncate(s: string, n: nat): (r: string)
    ensures r <= s
    ensures |r| == if |s| < n then |s| else n
  {
    if |s| <= n then s else s[..n]
  }

  /** The fingerprint of a (source, target, folder) triple. */
  function FingerprintDecision(hash: Hash, source: string, target: string, folder: string): (r: string)
    ensures r <= hash(DigestInput(source, target, folder))
    ensures |r| <= FingerprintLength
    ensures FingerprintLength <= |hash(DigestInput(source, target, folder))| ==> |r| == FingerprintLength
  {
    Truncate(hash(DigestInput(source, target, folder)), FingerprintLength)
  }

  /** Position of the first NUL in `s`, or `|s|` when there is none. */
  function FirstNul(s: string): (i: nat)
    ensures i <= |s|
  {
    if |s| == 0 || s[0] == Nul then 0 else 1 + FirstNul(s[1..])
  }

  /** The first NUL of a field-plus-separator text ends the field. */
  lemma {:induction false} FirstNulEndsField(a: string, x: string)
    requires Nul !in a
    ensures FirstNul(a + [Nul] + x) == |a|
    decreases |a|
  {
    if |a| > 0 {
      assert (a + [Nul] + x)[1..] == a[1..] + [Nul] + x;
      FirstNulEndsField(a[1..], x);
    }
  }

  /** A NUL-free field followed by a NUL can be split off unambiguously. */
  lemma SplitAtNul(a: string, x: string, b: string, y: string)
    requires Nul !in a && Nul !in b
    requires a + [Nul] + x == b + [Nul] + y
    ensures a == b && x == y
  {
    var s := a + [Nul] + x;
    FirstNulEndsField(a, x);
    FirstNulEndsField(b, y);
    assert a == s[..|a|] == b;
    assert x == s[|a| + 1..] == y;
  }

  /**
   * With NUL-free machine names, distinct triples give distinct digest
   * inputs, so fingerprints can only collide through the digest itself.
   */
  lemma DigestInputInjective(source: string, target: string, folder: string,
                             source': string, target': string, folder': string)
    requires Nul !in source && Nul !in target && Nul !in source' && Nul !in target'
    requires DigestInput(source, target, folder) == DigestInput(source', target', folder')
    ensures source == source' && target == target' && folder == folder'
  {
    assert DigestInput(source, target, folder) == source + [Nul] + (target + [Nul] + folder + [Nul]);
    assert DigestInput(source', target', folder') == source' + [Nul] + (target' + [Nul] + folder' + [Nul]);
    SplitAtNul(source, target + [Nul] + folder + [Nul], source', target' + [Nul] + folder' + [Nul]);
    assert target + [Nul] + folder + [Nul] == target + [Nul] + (folder + [Nul]);
    assert target' + [Nul] + folder' + [Nul] == target' + [Nul] + (folder' + [Nul]);
    SplitAtNul(target, folder + [Nul], target', folder' + [Nul]);
    assert folder == (folder + [Nul])[..|folder|];
    assert folder' == (folder' + [Nul])[..|folder'|];
  }
}

=== FILE: matrix.dfy ===
/**
 * The decision matrix: a dictionary from fingerprint to decision. Python
 * dictionaries remember insertion order, and the lookup's tie-break depends
 * on it, so the matrix is an insertion-ordered sequence of entries with
 * distinct fingerprints: assigning to an existing key keeps its position,
 * a new key goes to the end, and deleting a key closes the gap.
 */
module Matrices {
  import opened Wrappers
  import opened Responses

  /** What was decided for one (source, target, folder) request. */
  datatype Decision = Decision(source: string, target: string, folder: string, response: Response)

  /** One key/value pair of the matrix. */
  datatype Entry = Entry(fingerprint: string, decision: Decision)

  predicate UniqueKeys(entries: seq<Entry>)
  {
    forall i, j :: 0 <= i < j < |entries| ==> entries[i].fingerprint != entries[j].fingerprint
  }

  type Matrix = entries: seq<Entry> | UniqueKeys(entries)

  const Empty: Matrix := []

  function Keys(m: seq<Entry>): set<string>
  {
    set e | e in m :: e.fingerprint
  }

  /** The fingerprints whose decision grants access. */
  function AllowKeys(m: seq<Entry>): set<string>
  {
    set e | e in m && IsAllow(e.decision.response) :: e.fingerprint
  }

  /** Dictionary lookup by key (`matrix.get(fingerprint)`). */
  function Get(m: seq<Entry>, k: string): (r: Option<Decision>)
    ensures r.Some? ==> Entry(k, r.value) in m
    ensures r.None? <==> k !in Keys(m)
  {
    if |m| == 0 then None
    else if m[0].fingerprint == k then Some(m[0].decision)
    else Get(m[1..], k)
  }

  /** In a matrix, a stored entry is exactly what lookup by its key returns. */
  lemma GetIff(m: Matrix, k: string, d: Decision)
    ensures Get(m, k) == Some(d) <==> Entry(k, d) in m
  {
    if Entry(k, d) in m {
      var r := Get(m, k);
      assert r.Some?;
      var i :| 0 <= i < |m| && m[i] == Entry(k, d);
      var j :| 0 <= j < |m| && m[j] == Entry(k, r.value);
      assert i == j;
    }
  }

  /** Position of the key in the matrix, or -1 when it is absent. */
  function IndexOf(m: seq<Entry>, k: string): (i: int)
    ensures -1 <= i < |m|
    ensures 0 <= i ==> m[i].fingerprint == k
    ensures i < 0 <==> k !in Keys(m)
  {
    if |m| == 0 then -1
    else if m[0].fingerprint == k then 0
    else
      var i := IndexOf(m[1..], k);
      if i < 0 then -1 else i + 1
  }

  /**
   * Dictionary assignment `matrix[k] = d`: an existing key keeps its
   * position and gets the new value; a new key is appended.
   */
  function Put(m: Matrix, k: string, d: Decision): (r: Matrix)
    ensures Keys(r) == Keys(m) + {k}
    ensures k !in Keys(m) ==> r == m + [Entry(k, d)]
    ensures k in Keys(m) ==> |r| == |m| && forall i :: 0 <= i < |m| ==> r[i].fingerprint == m[i].fingerprint
  {
    var i := IndexOf(m, k);
    if 0 <= i then
      var r := m[i := Entry(k, d)];
      assert forall j :: 0 <= j < |m| ==> r[j].fingerprint == m[j].fingerprint;
      assert Keys(r) == Keys(m) by {
        forall x | x in Keys(r) ensures x in Keys(m) {
          var e :| e in r && e.fingerprint == x;
          var j :| 0 <= j < |r| && r[j] == e;
          assert m[j] in m;
        }
        forall x | x in Keys(m) ensures x in Keys(r) {
          var e :| e in m && e.fingerprint == x;
          var j :| 0 <= j < |m| && m[j] == e;
          assert r[j] in r;
        }
      }
      r
    else m + [Entry(k, d)]
  }

  /** After assignment the key maps to the new value and no other key changes. */
  lemma GetPut(m: Matrix, k: string, d: Decision, k': string)
    ensures Get(Put(m, k, d), k') == if k' == k then Some(d) else Get(m, k')
  {
    var r := Put(m, k, d);
    var i := IndexOf(m, k);
    assert Entry(k, d) in r;
    GetIff(r, k, d);
    if k' != k {
      forall d' ensures Entry(k', d') in r <==> Entry(k', d') in m {
        if Entry(k', d') in m {
          var j :| 0 <= j < |m| && m[j] == Entry(k', d');
          assert r[j] == m[j];
        }
      }
      match Get(m, k') {
        case Some(d') =>
          GetIff(m, k', d');
          GetIff(r, k', d');
        case None =>
          if Get(r, k').Some? {
            GetIff(m, k', Get(r, k').value);
          }
      }
    }
  }

  /** Dictionary deletion `del matrix[k]`; absent keys are left alone. */
  function Remove(m: Matrix, k: string): (r: Matrix)
    ensures forall e :: e in r <==> e in m && e.fingerprint != k
    ensures Keys(r) == Keys(m) - {k}
    ensures |r| <= |m|
  {
    if |m| == 0 then []
    else
      var rest := Remove(m[1..], k);
      if m[0].fingerprint == k then rest else [m[0]] + rest
  }

  /** After deletion the key is absent and no other key changes. */
  lemma GetRemove(m: Matrix, k: string, k': string)
    ensures Get(Remove(m, k), k') == if k' == k then None else Get(m, k')
  {
    var r := Remove(m, k);
    if k' != k {
      match Get(m, k') {
        case Some(d') =>
          GetIff(m, k', d');
          GetIff(r, k', d');
        case None =>
          if Get(r, k').Some? {
            GetIff(m, k', Get(r, k').value);
          }
      }
    }
  }
}

=== FILE: paths.dfy ===
/**
 * Textual path containment. The implementation first passes both paths
 * through `os.path.abspath`; this model applies no normalisation and
 * works on the strings as given. On paths `abspath` would leave unchanged
 * the two agree; on paths with `.`, `..` or empty segments they can differ.
 */
module Paths {

  const Sep: char := '/'
  const Root: string := "/"

  /** The path with exactly one separator guaranteed at its end. */
  function WithTrailingSep(p: string): (r: string)
    ensures 0 < |r| && r[|r| - 1] == Sep
    ensures p <= r && |r| <= |p| + 1
    ensures |r| == |p| <==> 0 < |p| && p[|p| - 1] == Sep
  {
    if 0 < |p| && p[|p| - 1] == Sep then p else p + [Sep]
  }

  /**
   * Is `needle` the same folder as, or nested under, `haystack`? Both get a
   * trailing separator, then they must be equal or the needle must start
   * with the haystack.
   */
  predicate Contains(needle: string, haystack: string)
    ensures needle == haystack ==> Contains(needle, haystack)
    ensures haystack == Root && 0 < |needle| && needle[0] == Sep ==> Contains(needle, haystack)
  {
    var n := WithTrailingSep(needle);
    var h := WithTrailingSep(haystack);
    n == h || h <= n
  }

  /**
   * The outer shape of an absolute path: a leading separator, and no
   * trailing one except for the root itself. Only that outer shape: it
   * does not exclude `.`, `..` or empty segments inside the path, which
   * `os.path.abspath` would rewrite.
   */
  predicate HasAbsoluteShape(p: string)
  {
    0 < |p| && p[0] == Sep && (p == Root || p[|p| - 1] != Sep)
  }

  /**
   * On paths of absolute shape, containment means: the same path, the root, or a
   * proper prefix followed by a separator (so "/ab" is not under "/a").
   */
  lemma ContainsIff(needle: string, haystack: string)
    requires HasAbsoluteShape(needle) && HasAbsoluteShape(haystack)
    ensures Contains(needle, haystack) <==>
      || needle == haystack
      || haystack == Root
      || (|haystack| < |needle| && needle[..|haystack|] == haystack && needle[|haystack|] == Sep)
  {
    var n := WithTrailingSep(needle);
    var h := WithTrailingSep(haystack);
    if haystack == Root {
      assert h == Root;
      assert h <= n by { assert n[0] == needle[0]; }
    } else if needle == Root {
      assert n == Root;
      assert h == haystack + [Sep];
      assert |h| > 1;
    } else {
      assert n == needle + [Sep];
      assert h == haystack + [Sep];
      if Contains(needle, haystack) && needle != haystack {
        assert h <= n;
        assert needle[..|haystack|] == n[..|haystack|] == h[..|haystack|] == haystack;
        assert needle[|haystack|] == n[|haystack|] == h[|haystack|] == Sep;
      }
      if |haystack| < |needle| && needle[..|haystack|] == haystack && needle[|haystack|] == Sep {
        assert h == n[..|h|];
      }
    }
  }

  /** A containing folder is never longer than the folder it contains. */
  lemma ContainsLength(needle: string, haystack: string)
    requires HasAbsoluteShape(needle) && HasAbsoluteShape(haystack)
    requires Contains(needle, haystack)
    ensures |haystack| <= |needle|
    ensures |haystack| == |needle| ==> haystack == needle
  {
    ContainsIff(needle, haystack);
  }

  /** Containment is transitive. */
  lemma ContainsTransitive(a: string, b: string, c: string)
    requires Contains(a, b) && Contains(b, c)
    ensures Contains(a, c)
  {
  }

  /** The appended separator rules out a bare string-prefix match. */
  lemma SeparatorMatters()
    ensures !Contains("/ab", "/a")
    ensures Contains("/a/b", "/a")
  {
    ContainsIff("/ab", "/a");
    ContainsIff("/a/b", "/a");
  }
}

=== FILE: policy.dfy ===
/**
 * The policy-file synchroniser. The policy directory is modelled as the
 * map from fingerprint to file contents of the files that match the
 * naming template (the fingerprint is the part after the template's "+").
 * Creating a file writes the single line "<source> <target> allow";
 * removing an absent file is not an error.
 */
module Policy {
  import opened Wrappers
  import opened Responses
  import opened Matrices

  type PolicyDir = map<string, string>

  /** The contents of a newly created policy file. */
  function PolicyLine(source: string, target: string): (r: string)
    ensures |r| == |source| + |target| + 7
    ensures r[..|source|] == source && r[|source|] == ' '
    ensures r[|source| + 1..|source| + 1 + |target|] == target
    ensures r[|r| - 6..] == " allow"
  {
    source + " " + target + " allow"
  }

  /** Creates the policy file for `fp` unless one already exists. */
  function GrantFor(dir: PolicyDir, source: string, target: string, fp: string): (r: PolicyDir)
    ensures r.Keys == dir.Keys + {fp}
    ensures forall k :: k in dir ==> r[k] == dir[k]
    ensures fp !in dir ==> r[fp] == PolicyLine(source, target)
  {
    if fp in dir then dir else dir[fp := PolicyLine(source, target)]
  }

  /** Removes the policy file for `fp`; an absent file is fine. */
  function RevokeFor(dir: PolicyDir, fp: string): (r: PolicyDir)
    ensures r.Keys == dir.Keys - {fp}
    ensures forall k :: k in r ==> r[k] == dir[k]
  {
    dir - {fp}
  }

  /**
   * The reconciliation loop over the matrix entries, in order: each entry
   * takes its own file off the `existing` list and grants or revokes it;
   * once every entry is done, the files still on the list are removed.
   */
  function Sync(entries: Matrix, dir: PolicyDir, existing: set<string>): PolicyDir
  {
    if |entries| == 0 then dir - existing
    else
      var e := entries[0];
      var d := e.decision;
      var dir' := if IsAllow(d.response) then GrantFor(dir, d.source, d.target, e.fingerprint)
                  else RevokeFor(dir, e.fingerprint);
      Sync(entries[1..], dir', existing - {e.fingerprint})
  }

  /** The head entry's key is not among the keys of the rest. */
  lemma KeysSplit(entries: Matrix)
    requires 0 < |entries|
    ensures entries[0].fingerprint !in Keys(entries[1..])
    ensures Keys(entries) == {entries[0].fingerprint} + Keys(entries[1..])
    ensures AllowKeys(entries) ==
      (if IsAllow(entries[0].decision.response) then {entries[0].fingerprint} else {}) + AllowKeys(entries[1..])
  {
    assert entries == [entries[0]] + entries[1..];
  }

  /**
   * Files for allow-type entries end up present, files for the other
   * entries and for the names still listed end up absent, and every other
   * file is untouched.
   */
  lemma {:induction false} SyncKeys(entries: Matrix, dir: PolicyDir, existing: set<string>)
    ensures Sync(entries, dir, existing).Keys == AllowKeys(entries) + (dir.Keys - existing - Keys(entries))
    decreases |entries|
  {
    if |entries| > 0 {
      var e := entries[0];
      var d := e.decision;
      var dir' := if IsAllow(d.response) then GrantFor(dir, d.source, d.target, e.fingerprint)
                  else RevokeFor(dir, e.fingerprint);
      SyncKeys(entries[1..], dir', existing - {e.fingerprint});
      KeysSplit(entries);
    }
  }

  /**
   * A file that already existed keeps its contents; a created file holds
   * the policy line of the entry with its fingerprint.
   */
  lemma {:induction false} SyncContents(entries: Matrix, dir: PolicyDir, existing: set<string>, k: string)
    requires k in Sync(entries, dir, existing)
    ensures k in dir ==> Sync(entries, dir, existing)[k] == dir[k]
    ensures k !in dir ==>
      Get(entries, k).Some? &&
      Sync(entries, dir, existing)[k] == PolicyLine(Get(entries, k).value.source, Get(entries, k).value.target)
    decreases |entries|
  {
    if |entries| > 0 {
      var e := entries[0];
      var d := e.decision;
      var dir' := if IsAllow(d.response) then GrantFor(dir, d.source, d.target, e.fingerprint)
                  else RevokeFor(dir, e.fingerprint);
      var existing' := existing - {e.fingerprint};
      KeysSplit(entries);
      SyncContents(entries[1..], dir', existing', k);
    }
  }

  /**
   * Brings the policy directory in line with the matrix: afterwards there
   * is a file exactly for each allow-type fingerprint, new files hold the
   * decision's policy line, and files that already existed are unchanged.
   */
  function ApplyPolicyChangesFrom(m: Matrix, dir: PolicyDir): (r: PolicyDir)
    ensures r.Keys == AllowKeys(m)
    ensures forall k :: k in r && k in dir ==> r[k] == dir[k]
    ensures forall k :: k in r && k !in dir ==>
      Get(m, k).Some? && r[k] == PolicyLine(Get(m, k).value.source, Get(m, k).value.target)
  {
    var r := Sync(m, dir, dir.Keys);
    SyncKeys(m, dir, dir.Keys);
    forall k | k in r
      ensures k in dir ==> r[k] == dir[k]
      ensures k !in dir ==> Get(m, k).Some? && r[k] == PolicyLine(Get(m, k).value.source, Get(m, k).value.target)
    {
      SyncContents(m, dir, dir.Keys, k);
    }
    r
  }

  /** Reconciling twice changes nothing the second time. */
  lemma ApplyPolicyChangesIdempotent(m: Matrix, dir: PolicyDir)
    ensures ApplyPolicyChangesFrom(m, ApplyPolicyChangesFrom(m, dir)) == ApplyPolicyChangesFrom(m, dir)
  {
    var once := ApplyPolicyChangesFrom(m, dir);
    var twice := ApplyPolicyChangesFrom(m, once);
    assert twice.Keys == once.Keys;
    forall k | k in twice ensures twice[k] == once[k] {
    }
  }
}

=== FILE: ranking.dfy ===
/**
 * The ranking step of the matrix lookup: matches are sorted by folder
 * length with a stable sort, the order is reversed (longest first, and
 * among equal lengths the later entry first), and the scan stops at the
 * first allow-type match; when there is none, the scan runs to the end
 * and the last candidate, a shortest one, is the answer.
 */
module Ranking {
  import opened Responses
  import opened Matrices

  function FolderLength(e: Entry): nat
  {
    |e.decision.folder|
  }

  predicate AllowType(e: Entry)
  {
    IsAllow(e.decision.response)
  }

  predicate Ascending(s: seq<Entry>)
  {
    forall i, j :: 0 <= i < j < |s| ==> FolderLength(s[i]) <= FolderLength(s[j])
  }

  predicate Descending(s: seq<Entry>)
  {
    forall i, j :: 0 <= i < j < |s| ==> FolderLength(s[i]) >= FolderLength(s[j])
  }

  /** Inserts `e` before the first element that is not shorter than it. */
  function Insert(e: Entry, s: seq<Entry>): seq<Entry>
  {
    if |s| == 0 || FolderLength(e) <= FolderLength(s[0]) then [e] + s
    else [s[0]] + Insert(e, s[1..])
  }

  /** Insertion adds exactly the one element. */
  lemma {:induction false} InsertMultiset(e: Entry, s: seq<Entry>)
    ensures multiset(Insert(e, s)) == multiset(s) + multiset{e}
  {
    if |s| > 0 && FolderLength(e) > FolderLength(s[0]) {
      InsertMultiset(e, s[1..]);
      assert s == [s[0]] + s[1..];
    }
  }

  /** Insertion into an ascending list keeps it ascending. */
  lemma {:induction false} InsertAscending(e: Entry, s: seq<Entry>)
    requires Ascending(s)
    ensures Ascending(Insert(e, s))
  {
    if |s| > 0 && FolderLength(e) > FolderLength(s[0]) {
      var rest := Insert(e, s[1..]);
      InsertAscending(e, s[1..]);
      InsertMultiset(e, s[1..]);
      forall j | 0 <= j < |rest| ensures FolderLength(s[0]) <= FolderLength(rest[j]) {
        assert rest[j] in multiset(rest);
        if rest[j] != e {
          assert rest[j] in multiset(s[1..]);
          var k :| 0 <= k < |s[1..]| && s[1..][k] == rest[j];
          assert s[k + 1] == rest[j];
        }
      }
    }
  }

  /**
   * Sort by folder length (`sorted(matches, key=...)`). The head is
   * inserted ahead of every element of equal length, as a stable sort
   * orders ties; that tie order is computed but not stated (see the
   * LookupDecision line under "Left out" in the README).
   */
  function SortByFolderLength(s: seq<Entry>): (r: seq<Entry>)
    ensures Ascending(r)
    ensures multiset(r) == multiset(s)
  {
    if |s| == 0 then []
    else
      var sorted := SortByFolderLength(s[1..]);
      InsertAscending(s[0], sorted);
      InsertMultiset(s[0], sorted);
      assert s == [s[0]] + s[1..];
      Insert(s[0], sorted)
  }

  function Reverse(s: seq<Entry>): (r: seq<Entry>)
    ensures |r| == |s|
    ensures forall i :: 0 <= i < |s| ==> r[i] == s[|s| - 1 - i]
    ensures multiset(r) == multiset(s)
    ensures Ascending(s) ==> Descending(r)
  {
    if |s| == 0 then []
    else
      assert s == [s[0]] + s[1..];
      Reverse(s[1..]) + [s[0]]
  }

  /**
   * The scan over the candidates, longest first: the first allow-type one,
   * or the last one when none is allow-type. An allow-type answer is a
   * longest allow-type candidate; otherwise the answer is a shortest
   * candidate.
   */
  function PickFirstAllow(ranked: seq<Entry>): (r: Entry)
    requires 0 < |ranked| && Descending(ranked)
    ensures r in ranked
    ensures (exists e :: e in ranked && AllowType(e)) ==>
      AllowType(r) && forall e :: e in ranked && AllowType(e) ==> FolderLength(e) <= FolderLength(r)
    ensures (forall e :: e in ranked ==> !AllowType(e)) ==>
      forall e :: e in ranked ==> FolderLength(r) <= FolderLength(e)
  {
    if AllowType(ranked[0]) || |ranked| == 1 then ranked[0]
    else
      assert ranked == [ranked[0]] + ranked[1..];
      PickFirstAllow(ranked[1..])
  }

  /** Permutations have the same members. */
  lemma SameMembers(a: seq<Entry>, b: seq<Entry>)
    requires multiset(a) == multiset(b)
    ensures forall e :: e in a <==> e in b
  {
    forall e ensures e in a <==> e in b {
      assert e in a <==> e in multiset(a);
      assert e in b <==> e in multiset(b);
    }
  }

  /** The candidate the lookup returns for a non-empty list of matches. */
  function Best(matches: seq<Entry>): (r: Entry)
    requires 0 < |matches|
    ensures r in matches
    ensures (exists e :: e in matches && AllowType(e)) ==>
      AllowType(r) && forall e :: e in matches && AllowType(e) ==> FolderLength(e) <= FolderLength(r)
    ensures (forall e :: e in matches ==> !AllowType(e)) ==>
      forall e :: e in matches ==> FolderLength(r) <= FolderLength(e)
  {
    var ranked := Reverse(SortByFolderLength(matches));
    SameMembers(ranked, matches);
    PickFirstAllow(ranked)
  }
}

=== FILE: responses.dfy ===
/**
 * The closed set of five authorization responses, the three predicates the
 * implementation derives from a response's NAME, and the partial name-to-value parser.
 */
module Responses {
  import opened Wrappers

  datatype Response = AllowOnetime | DenyOnetime | AllowAlways | DenyAlways | Block

  /** The name each response carries (its `name` attribute). */
  function Name(r: Response): (n: string)
    ensures 0 < |n| && forall i :: 0 <= i < |n| ==> 'A' <= n[i] <= 'Z' || n[i] == '_'
  {
    match r
    case AllowOnetime => "ALLOW_ONETIME"
    case DenyOnetime => "DENY_ONETIME"
    case AllowAlways => "ALLOW_ALWAYS"
    case DenyAlways => "DENY_ALWAYS"
    case Block => "BLOCK"
  }

  predicate StartsWith(s: string, prefix: string)
  {
    prefix <= s
  }

  predicate EndsWith(s: string, suffix: string)
  {
    |suffix| <= |s| && s[|s| - |suffix|..] == suffix
  }

  /** A response grants access when its name starts with "ALLOW". */
  predicate IsAllow(r: Response)
    ensures IsAllow(r) <==> r == AllowOnetime || r == AllowAlways
  {
    assert Name(r)[0] == 'A' <==> r == AllowOnetime || r == AllowAlways;
    StartsWith(Name(r), "ALLOW")
  }

  /** A response is single-use when its name ends with "ONETIME". */
  predicate IsOnetime(r: Response)
    ensures IsOnetime(r) <==> r == AllowOnetime || r == DenyOnetime
  {
    EndsWith(Name(r), "ONETIME")
  }

  /** Only the response named exactly "BLOCK" is a block. */
  predicate IsBlock(r: Response)
    ensures IsBlock(r) <==> r == Block
  {
    Name(r) == "BLOCK"
  }

  /**
   * Looks a response up by its exact name; any other string is an invalid
   * value, reported with the string itself.
   */
  function FromString(s: string): (r: Result<Response, string>)
    ensures r.Success? ==> Name(r.value) == s
    ensures r.Failure? ==> r.error == s && forall resp: Response :: Name(resp) != s
  {
    if s == "ALLOW_ONETIME" then Success(AllowOnetime)
    else if s == "DENY_ONETIME" then Success(DenyOnetime)
    else if s == "ALLOW_ALWAYS" then Success(AllowAlways)
    else if s == "DENY_ALWAYS" then Success(DenyAlways)
    else if s == "BLOCK" then Success(Block)
    else Failure(s)
  }

  /** Parsing a response's own name gives back that response. */
  lemma FromStringName(r: Response)
    ensures FromString(Name(r)) == Success(r)
  {
  }

  /** Distinct responses carry distinct names. */
  lemma NameInjective(r: Response, r': Response)
    ensures Name(r) == Name(r') ==> r == r'
  {
  }
}

=== FILE: scenarios.dfy ===
/**
 * Properties of sequences of operations: how recorded decisions answer
 * later requests, and how one-time decisions are consumed.
 */
module Scenarios {
  import opened Wrappers
  import opened Responses
  import opened Paths
  import opened Fingerprints
  import opened Matrices
  import opened DecisionStore

  /**
   * In a well-formed matrix, a match whose folder is as long as the
   * requested one is the decision for the exact requested triple.
   */
  lemma ExactMatchIsRequestedTriple(hash: Hash, m: Matrix, source: string, target: string, folder: string, e: Entry)
    requires WellFormed(hash, m) && HasAbsoluteShape(folder)
    requires e in m && IsMatch(e.decision, source, target, folder)
    requires |folder| <= |e.decision.folder|
    ensures e.decision.folder == folder
    ensures e.fingerprint == FingerprintDecision(hash, source, target, folder)
  {
    ContainsLength(folder, e.decision.folder);
  }

  /**
   * A stored allow-type decision that applies to a request guarantees an
   * allow-type answer for it.
   */
  lemma StoredAllowAnswers(hash: Hash, m: Matrix, source: string, target: string, folder: string,
                           k: string, d: Decision)
    requires Get(m, k) == Some(d) && IsAllow(d.response) && IsMatch(d, source, target, folder)
    ensures
      var lk := LookupDecision(hash, m, source, target, folder);
      lk.decision.Some? && IsAllow(lk.decision.value.response)
  {
    GetIff(m, k, d);
    assert HasAllowMatch(m, source, target, folder);
  }

  /**
   * Recording a granting response makes every later request for the same
   * machine pair and a folder inside the recorded one resolve to an
   * allow-type decision.
   */
  lemma RecordedAllowCoversSubfolders(hash: Hash, st: Store, source: string, target: string, folder: string,
                                      response: Response, sub: string)
    requires IsAllow(response) && Contains(sub, folder)
    ensures
      var rec := ProcessAuthorizationRequest(hash, st, source, target, folder, response);
      var lk := LookupDecision(hash, rec.store.matrix, source, target, sub);
      lk.decision.Some? && IsAllow(lk.decision.value.response)
  {
    var rec := ProcessAuthorizationRequest(hash, st, source, target, folder, response);
    var d := Decision(source, target, folder, response);
    assert Get(rec.store.matrix, rec.fingerprint) == Some(d);
    StoredAllowAnswers(hash, rec.store.matrix, source, target, sub, rec.fingerprint, d);
  }

  /**
   * In a well-formed matrix, the decision stored for the exact requested
   * triple wins the lookup when it is allow-type: nothing that applies can
   * have a longer folder.
   */
  lemma ExactAllowWins(hash: Hash, m: Matrix, source: string, target: string, folder: string, d: Decision)
    requires WellFormed(hash, m) && HasAbsoluteShape(folder)
    requires d.source == source && d.target == target && d.folder == folder && IsAllow(d.response)
    requires Get(m, FingerprintDecision(hash, source, target, folder)) == Some(d)
    ensures LookupDecision(hash, m, source, target, folder) ==
      Lookup(Some(d), FingerprintDecision(hash, source, target, folder))
  {
    var fp := FingerprintDecision(hash, source, target, folder);
    GetIff(m, fp, d);
    assert IsMatch(d, source, target, folder);
    assert HasAllowMatch(m, source, target, folder);
    var lk := LookupDecision(hash, m, source, target, folder);
    var best := lk.decision.value;
    GetIff(m, lk.fingerprint, best);
    ExactMatchIsRequestedTriple(hash, m, source, target, folder, Entry(lk.fingerprint, best));
  }

  /**
   * In a well-formed matrix holding ALLOW_ONETIME for the exact requested
   * triple, the prior-authorization lookup consumes that decision: the
   * answer is absent, its key is gone and no other key changes.
   */
  lemma OnetimeLookupConsumes(hash: Hash, st: Store, source: string, target: string, folder: string)
    requires WellFormed(hash, st.matrix) && HasAbsoluteShape(folder)
    requires Get(st.matrix, FingerprintDecision(hash, source, target, folder)) ==
      Some(Decision(source, target, folder, AllowOnetime))
    ensures
      var fp := FingerprintDecision(hash, source, target, folder);
      var prior := LookupPriorAuthorization(hash, st, source, target, folder);
      && prior.response == None
      && prior.fingerprint == fp
      && Get(prior.store.matrix, fp) == None
      && forall k :: k != fp ==> Get(prior.store.matrix, k) == Get(st.matrix, k)
  {
    var d := Decision(source, target, folder, AllowOnetime);
    ExactAllowWins(hash, st.matrix, source, target, folder, d);
  }

  /**
   * After recording ALLOW_ONETIME for a triple, the next prior-authorization
   * lookup for that same triple consumes it: the answer is absent, the key
   * is gone and nothing else changed since before the grant.
   */
  lemma OnetimeGrantIsConsumed(hash: Hash, st: Store, source: string, target: string, folder: string)
    requires WellFormed(hash, st.matrix) && HasAbsoluteShape(folder)
    ensures
      var rec := ProcessAuthorizationRequest(hash, st, source, target, folder, AllowOnetime);
      var prior := LookupPriorAuthorization(hash, rec.store, source, target, folder);
      && prior.response == None
      && prior.fingerprint == rec.fingerprint
      && Get(prior.store.matrix, rec.fingerprint) == None
      && forall k :: k != rec.fingerprint ==> Get(prior.store.matrix, k) == Get(st.matrix, k)
  {
    var rec := ProcessAuthorizationRequest(hash, st, source, target, folder, AllowOnetime);
    var fp := rec.fingerprint;
    assert Get(rec.store.matrix, fp) == Some(Decision(source, target, folder, AllowOnetime));
    assert fp == FingerprintDecision(hash, source, target, folder);
    OnetimeLookupConsumes(hash, rec.store, source, target, folder);
  }

  /**
   * Starting from an empty store, a one-time grant answers nothing when
   * asked about, and asking again finds no decision and offers the
   * fingerprint of the requested triple.
   */
  lemma OnetimeGrantFromEmptyStore(hash: Hash, source: string, target: string, folder: string)
    ensures
      var rec := ProcessAuthorizationRequest(hash, Store(Empty, map[]), source, target, folder, AllowOnetime);
      var first := LookupPriorAuthorization(hash, rec.store, source, target, folder);
      var second := LookupPriorAuthorization(hash, first.store, source, target, folder);
      && first.response == None
      && second.response == None
      && second.fingerprint == FingerprintDecision(hash, source, target, folder)
      && second.store.matrix == Empty
  {
    var first := OnetimeGrantEmptiesStore(hash, source, target, folder);
    EmptyMatrixAnswersNothing(hash, first.store, source, target, folder);
  }

  /** The first half: the grant is consumed and the matrix is empty again. */
  lemma OnetimeGrantEmptiesStore(hash: Hash, source: string, target: string, folder: string) returns (first: Prior)
    ensures
      var rec := ProcessAuthorizationRequest(hash, Store(Empty, map[]), source, target, folder, AllowOnetime);
      first == LookupPriorAuthorization(hash, rec.store, source, target, folder)
    ensures first.response == None && first.store.matrix == Empty
  {
    var rec := GrantIntoEmptyStore(hash, source, target, folder, AllowOnetime);
    SingleOnetimeConsumed(hash, rec.store, rec.fingerprint, source, target, folder);
    first := LookupPriorAuthorization(hash, rec.store, source, target, folder);
  }

  /** Recording a non-BLOCK response into an empty store leaves a matrix of that one entry. */
  lemma GrantIntoEmptyStore(hash: Hash, source: string, target: string, folder: string, response: Response)
    returns (rec: Recorded)
    requires !IsBlock(response)
    ensures rec == ProcessAuthorizationRequest(hash, Store(Empty, map[]), source, target, folder, response)
    ensures rec.store.matrix == [Entry(rec.fingerprint, Decision(source, target, folder, response))]
  {
    rec := ProcessAuthorizationRequest(hash, Store(Empty, map[]), source, target, folder, response);
    var d := Decision(source, target, folder, response);
    assert rec.store.matrix == Put(Empty, rec.fingerprint, d) == Empty + [Entry(rec.fingerprint, d)];
  }

  /**
   * A matrix holding only an ALLOW_ONETIME decision for the requested
   * triple, under any key, answers nothing and ends empty.
   */
  lemma SingleOnetimeConsumed(hash: Hash, st: Store, fp: string, source: string, target: string, folder: string)
    requires st.matrix == [Entry(fp, Decision(source, target, folder, AllowOnetime))]
    ensures
      var r := LookupPriorAuthorization(hash, st, source, target, folder);
      r.response == None && r.store.matrix == Empty
  {
    var d := Decision(source, target, folder, AllowOnetime);
    var e := Entry(fp, d);
    assert IsMatch(d, source, target, folder);
    assert MatchingEntries(st.matrix, source, target, folder) == [e];
    var lk := LookupDecision(hash, st.matrix, source, target, folder);
    assert lk.decision == Some(d) && lk.fingerprint == fp;
    var m := RevokeOnetime(st, fp).matrix;
    assert forall k :: Get(m, k) == None by {
      forall k ensures Get(m, k) == None {
        if k != fp {
          assert Get(m, k) == Get(st.matrix, k);
        }
      }
    }
    NothingStoredIsEmpty(m);
  }

  /** A matrix in which every lookup fails is empty. */
  lemma NothingStoredIsEmpty(m: Matrix)
    requires forall k :: Get(m, k) == None
    ensures m == Empty
  {
    assert |m| == 0 || Get(m, m[0].fingerprint).Some?;
  }

  /** With an empty matrix, a prior-authorization request finds nothing and changes nothing. */
  lemma EmptyMatrixAnswersNothing(hash: Hash, st: Store, source: string, target: string, folder: string)
    requires st.matrix == Empty
    ensures
      var r := LookupPriorAuthorization(hash, st, source, target, folder);
      && r.response == None
      && r.fingerprint == FingerprintDecision(hash, source, target, folder)
      && r.store.matrix == Empty
  {
    assert LookupDecision(hash, st.matrix, source, target, folder) ==
      Lookup(None, FingerprintDecision(hash, source, target, folder));
  }

  /**
   * In a well-formed matrix holding the root DENY_ALWAYS of a machine pair,
   * every request for that pair whose folder starts with a separator
   * (trailing separator or not) matches something, and when no allow-type
   * decision applies, the answer is that root decision.
   */
  lemma RootDenyAnswers(hash: Hash, m: Matrix, source: string, target: string, other: string)
    requires WellFormed(hash, m) && 0 < |other| && other[0] == Sep
    requires Get(m, FingerprintDecision(hash, source, target, Root)) == Some(Decision(source, target, Root, DenyAlways))
    ensures
      var lk := LookupDecision(hash, m, source, target, other);
      && lk.decision.Some?
      && (!HasAllowMatch(m, source, target, other) ==>
            && lk.decision == Some(Decision(source, target, Root, DenyAlways))
            && lk.fingerprint == FingerprintDecision(hash, source, target, Root))
  {
    var d := Decision(source, target, Root, DenyAlways);
    GetIff(m, FingerprintDecision(hash, source, target, Root), d);
    assert IsMatch(d, source, target, other);
    var lk := LookupDecision(hash, m, source, target, other);
    if !HasAllowMatch(m, source, target, other) {
      var best := lk.decision.value;
      GetIff(m, lk.fingerprint, best);
      assert Entry(lk.fingerprint, best) in m;
      assert HasAbsoluteShape(best.folder);
      assert |best.folder| <= |Root|;
      assert best.folder == [best.folder[0]] == Root;
      assert lk.fingerprint == FingerprintDecision(hash, source, target, Root);
    }
  }

  /**
   * A BLOCK answer shuts the whole machine pair: every later request for
   * any folder that starts with a separator matches something, and when no allow-type decision applies,
   * the answer is the root DENY_ALWAYS the block stored.
   */
  lemma BlockCoversEveryFolder(hash: Hash, st: Store, source: string, target: string, folder: string,
                               other: string)
    requires WellFormed(hash, st.matrix) && 0 < |other| && other[0] == Sep
    ensures
      var rec := ProcessAuthorizationRequest(hash, st, source, target, folder, Block);
      var lk := LookupDecision(hash, rec.store.matrix, source, target, other);
      && lk.decision.Some?
      && (!HasAllowMatch(rec.store.matrix, source, target, other) ==>
            lk.decision == Some(Decision(source, target, Root, DenyAlways)) && lk.fingerprint == rec.fingerprint)
  {
    var rec := ProcessAuthorizationRequest(hash, st, source, target, folder, Block);
    assert Get(rec.store.matrix, rec.fingerprint) == Some(Decision(source, target, Root, DenyAlways));
    assert rec.fingerprint == FingerprintDecision(hash, source, target, Root);
    RootDenyAnswers(hash, rec.store.matrix, source, target, other);
  }

  /**
   * A BLOCK does not remove earlier grants: a folder already granted
   * ALLOW_ALWAYS still resolves to an allow-type decision afterwards,
   * because allow-type matches win the ranking.
   */
  lemma BlockKeepsEarlierAllow(hash: Hash, st: Store, source: string, target: string, granted: string,
                               blocked: string)
    requires FingerprintDecision(hash, source, target, granted) != FingerprintDecision(hash, source, target, Root)
    ensures
      var first := ProcessAuthorizationRequest(hash, st, source, target, granted, AllowAlways);
      var second := ProcessAuthorizationRequest(hash, first.store, source, target, blocked, Block);
      var lk := LookupDecision(hash, second.store.matrix, source, target, granted);
      lk.decision.Some? && IsAllow(lk.decision.value.response)
  {
    var first := ProcessAuthorizationRequest(hash, st, source, target, granted, AllowAlways);
    var second := ProcessAuthorizationRequest(hash, first.store, source, target, blocked, Block);
    var d := Decision(source, target, granted, AllowAlways);
    assert Get(first.store.matrix, first.fingerprint) == Some(d);
    assert Get(second.store.matrix, second.fingerprint) == Some(Decision(source, target, Root, DenyAlways));
    assert second.fingerprint == FingerprintDecision(hash, source, target, Root);
    assert first.fingerprint == FingerprintDecision(hash, source, target, granted);
    assert Get(second.store.matrix, first.fingerprint) == Some(d);
    StoredAllowAnswers(hash, second.store.matrix, source, target, granted, first.fingerprint, d);
  }

  /**
   * A broader ALLOW_ALWAYS beats a narrower DENY_ALWAYS recorded after it:
   * the request for the narrower folder resolves to an allow-type decision
   * (for instance "/home/user/docs" granted, then "/home/user/docs/private"
   * denied).
   */
  lemma BroaderAllowBeatsNarrowerDeny(hash: Hash, st: Store, source: string, target: string,
                                      broad: string, narrow: string)
    requires Contains(narrow, broad)
    requires FingerprintDecision(hash, source, target, broad) != FingerprintDecision(hash, source, target, narrow)
    ensures
      var first := ProcessAuthorizationRequest(hash, st, source, target, broad, AllowAlways);
      var second := ProcessAuthorizationRequest(hash, first.store, source, target, narrow, DenyAlways);
      var lk := LookupDecision(hash, second.store.matrix, source, target, narrow);
      lk.decision.Some? && IsAllow(lk.decision.value.response)
  {
    var first := ProcessAuthorizationRequest(hash, st, source, target, broad, AllowAlways);
    var second := ProcessAuthorizationRequest(hash, first.store, source, target, narrow, DenyAlways);
    var m := second.store.matrix;
    var allow := Decision(source, target, broad, AllowAlways);
    assert Get(first.store.matrix, first.fingerprint) == Some(allow);
    assert first.fingerprint == FingerprintDecision(hash, source, target, broad);
    assert Get(second.store.matrix, second.fingerprint) == Some(Decision(source, target, narrow, DenyAlways));
    assert second.fingerprint == FingerprintDecision(hash, source, target, narrow);
    assert Get(m, first.fingerprint) == Some(allow);
    StoredAllowAnswers(hash, m, source, target, narrow, first.fingerprint, allow);
  }

  /** The folders of the example above are related as claimed. */
  lemma DocsExample()
    ensures Contains("/home/user/docs/private", "/home/user/docs")
    ensures !Contains("/home/user/docs", "/home/user/docs/private")
  {
    ContainsIff("/home/user/docs/private", "/home/user/docs");
    ContainsIff("/home/user/docs", "/home/user/docs/private");
  }

  /**
   * On the receiving side a one-time grant answers one folder check: the
   * first check for the granted folder returns it and consumes the
   * decision, so a second check returns nothing.
   */
  lemma OnetimeFolderCheckAnswersOnce(hash: Hash, st: Store, source: string, target: string, folder: string)
    ensures
      var rec := ProcessAuthorizationRequest(hash, st, source, target, folder, AllowOnetime);
      var first := LookupDecisionFolder(rec.store, rec.fingerprint, folder);
      var second := LookupDecisionFolder(first.store, rec.fingerprint, folder);
      first.folder == Some(folder) && second.folder == None
  {
  }
}

=== FILE: store.dfy ===
/**
 * The decision matrix's operations as transitions of the whole store: the
 * matrix (whose on-disk copy `save` rewrites after every change) together
 * with the policy directory that every change re-synchronises.
 */
module DecisionStore {
  import opened Wrappers
  import opened Responses
  import opened Paths
  import opened Fingerprints
  import opened Matrices
  import opened Ranking
  import opened Policy

  datatype Store = Store(matrix: Matrix, policy: PolicyDir)

  /** The policy files are exactly those of the allow-type decisions. */
  predicate PolicyConsistent(st: Store)
  {
    st.policy.Keys == AllowKeys(st.matrix)
  }

  /**
   * Every entry is stored under the fingerprint of its own triple and has
   * a folder of absolute shape.
   */
  predicate WellFormed(hash: Hash, m: Matrix)
  {
    forall e :: e in m ==>
      && e.fingerprint == FingerprintDecision(hash, e.decision.source, e.decision.target, e.decision.folder)
      && HasAbsoluteShape(e.decision.folder)
  }

  /** No stored decision is a BLOCK. */
  predicate NoBlock(m: Matrix)
  {
    forall e :: e in m ==> !IsBlock(e.decision.response)
  }

  /** A stored decision applies to the request. */
  predicate IsMatch(d: Decision, source: string, target: string, folder: string)
    ensures d.folder == folder ==> (IsMatch(d, source, target, folder) <==> d.source == source && d.target == target)
    ensures d.folder == Root && 0 < |folder| && folder[0] == Sep ==>
      (IsMatch(d, source, target, folder) <==> d.source == source && d.target == target)
  {
    source == d.source && target == d.target && Contains(folder, d.folder)
  }

  /** Some allow-type decision applies to the request. */
  predicate HasAllowMatch(m: Matrix, source: string, target: string, folder: string)
  {
    exists e :: e in m && IsMatch(e.decision, source, target, folder) && IsAllow(e.decision.response)
  }

  /** The matching entries, in matrix order. */
  function MatchingEntries(m: seq<Entry>, source: string, target: string, folder: string): (r: seq<Entry>)
    ensures forall e :: e in r <==> e in m && IsMatch(e.decision, source, target, folder)
  {
    if |m| == 0 then []
    else
      var rest := MatchingEntries(m[1..], source, target, folder);
      assert m == [m[0]] + m[1..];
      if IsMatch(m[0].decision, source, target, folder) then [m[0]] + rest else rest
  }

  /** With an allow-type match, the chosen match is a longest allow-type one. */
  lemma BestWithAllow(m: Matrix, source: string, target: string, folder: string)
    requires HasAllowMatch(m, source, target, folder)
    ensures 0 < |MatchingEntries(m, source, target, folder)|
    ensures var best := Best(MatchingEntries(m, source, target, folder));
      && IsAllow(best.decision.response)
      && forall e :: e in m && IsMatch(e.decision, source, target, folder) && IsAllow(e.decision.response) ==>
           |e.decision.folder| <= |best.decision.folder|
  {
    var matches := MatchingEntries(m, source, target, folder);
    var a :| a in m && IsMatch(a.decision, source, target, folder) && IsAllow(a.decision.response);
    assert a in matches && AllowType(a);
    var best := Best(matches);
    forall e | e in m && IsMatch(e.decision, source, target, folder) && IsAllow(e.decision.response)
      ensures |e.decision.folder| <= |best.decision.folder|
    {
      assert e in matches && AllowType(e);
      assert FolderLength(e) <= FolderLength(best);
    }
  }

  /** Without an allow-type match, the chosen match is a shortest one. */
  lemma BestWithoutAllow(m: Matrix, source: string, target: string, folder: string)
    requires 0 < |MatchingEntries(m, source, target, folder)|
    requires !HasAllowMatch(m, source, target, folder)
    ensures var best := Best(MatchingEntries(m, source, target, folder));
      forall e :: e in m && IsMatch(e.decision, source, target, folder) ==>
        |best.decision.folder| <= |e.decision.folder|
  {
    var matches := MatchingEntries(m, source, target, folder);
    var best := Best(matches);
    forall e | e in matches ensures !AllowType(e) {
      assert e in m && IsMatch(e.decision, source, target, folder);
    }
    forall e | e in m && IsMatch(e.decision, source, target, folder)
      ensures |best.decision.folder| <= |e.decision.folder|
    {
      assert e in matches;
      assert FolderLength(best) <= FolderLength(e);
    }
  }

  /** What the lookup found, and the fingerprint to act on. */
  datatype Lookup = Lookup(decision: Option<Decision>, fingerprint: string)

  /**
   * Finds the stored decision that answers a request. With a match, it is
   * a decision stored under the returned fingerprint for the same machine
   * pair whose folder contains the requested one: if any match is
   * allow-type, the answer is allow-type and no allow-type match has a
   * longer folder; otherwise no match has a shorter folder. Without a
   * match, the answer is the fingerprint of the exact requested triple.
   */
  function LookupDecision(hash: Hash, m: Matrix, source: string, target: string, folder: string): (r: Lookup)
    ensures r.decision.Some? ==>
      && Get(m, r.fingerprint) == r.decision
      && IsMatch(r.decision.value, source, target, folder)
    ensures r.decision.None? <==> forall e :: e in m ==> !IsMatch(e.decision, source, target, folder)
    ensures r.decision.None? ==> r.fingerprint == FingerprintDecision(hash, source, target, folder)
    ensures HasAllowMatch(m, source, target, folder) ==>
      && r.decision.Some?
      && IsAllow(r.decision.value.response)
      && forall e :: e in m && IsMatch(e.decision, source, target, folder) && IsAllow(e.decision.response) ==>
           |e.decision.folder| <= |r.decision.value.folder|
    ensures r.decision.Some? && !HasAllowMatch(m, source, target, folder) ==>
      forall e :: e in m && IsMatch(e.decision, source, target, folder) ==>
        |r.decision.value.folder| <= |e.decision.folder|
  {
    var matches := MatchingEntries(m, source, target, folder);
    if 0 < |matches| then
      var best := Best(matches);
      GetIff(m, best.fingerprint, best.decision);
      if HasAllowMatch(m, source, target, folder) then
        BestWithAllow(m, source, target, folder);
        Lookup(Some(best.decision), best.fingerprint)
      else
        BestWithoutAllow(m, source, target, folder);
        Lookup(Some(best.decision), best.fingerprint)
    else
      Lookup(None, FingerprintDecision(hash, source, target, folder))
  }

  /**
   * Expires a one-time decision: the key is deleted exactly when it holds
   * a one-time decision, and then the policy files are re-synchronised;
   * otherwise nothing changes. No other key is affected.
   */
  function RevokeOnetime(st: Store, fp: string): (r: Store)
    ensures Get(r.matrix, fp).None? <==> Get(st.matrix, fp).None? || IsOnetime(Get(st.matrix, fp).value.response)
    ensures Get(r.matrix, fp).Some? ==> r == st
    ensures forall k :: k != fp ==> Get(r.matrix, k) == Get(st.matrix, k)
    ensures r != st ==> PolicyConsistent(r)
    ensures forall k :: k in r.policy && k in st.policy ==> r.policy[k] == st.policy[k]
    ensures PolicyConsistent(st) ==> PolicyConsistent(r)
  {
    match Get(st.matrix, fp)
    case Some(d) =>
      if IsOnetime(d.response) then
        var m := Remove(st.matrix, fp);
        assert forall k :: Get(m, k) == if k == fp then None else Get(st.matrix, k) by {
          forall k ensures Get(m, k) == if k == fp then None else Get(st.matrix, k) {
            GetRemove(st.matrix, fp, k);
          }
        }
        Store(m, ApplyPolicyChangesFrom(m, st.policy))
      else st
    case None => st
  }

  /** The answer to the authorizing side, the fingerprint, and the new store. */
  datatype Prior = Prior(response: Option<Response>, fingerprint: string, store: Store)

  /**
   * Looks up a prior decision and consumes it if it is one-time. A
   * one-time decision is never reported: the answer is then absent, as
   * when nothing matched. Afterwards no one-time decision is stored under
   * the returned fingerprint.
   */
  function LookupPriorAuthorization(hash: Hash, st: Store, source: string, target: string, folder: string): (r: Prior)
    ensures r.response.Some? ==> !IsOnetime(r.response.value)
    ensures r.response.Some? ==>
      && Get(st.matrix, r.fingerprint).Some?
      && Get(st.matrix, r.fingerprint).value.response == r.response.value
      && IsMatch(Get(st.matrix, r.fingerprint).value, source, target, folder)
    ensures Get(r.store.matrix, r.fingerprint).None? || !IsOnetime(Get(r.store.matrix, r.fingerprint).value.response)
    ensures r.response.Some? ==> r.store == st
    ensures forall k :: k in r.store.policy && k in st.policy ==> r.store.policy[k] == st.policy[k]
    ensures forall k :: k != r.fingerprint ==> Get(r.store.matrix, k) == Get(st.matrix, k)
    ensures PolicyConsistent(st) ==> PolicyConsistent(r.store)
  {
    var lk := LookupDecision(hash, st.matrix, source, target, folder);
    var st' := RevokeOnetime(st, lk.fingerprint);
    if lk.decision.Some? && !IsOnetime(lk.decision.value.response) then
      Prior(Some(lk.decision.value.response), lk.fingerprint, st')
    else
      Prior(None, lk.fingerprint, st')
  }

  /**
   * The prior-authorization answer acts on the lookup's fingerprint, and is
   * absent exactly when the lookup found nothing or found a one-time
   * decision; in the second case that decision is consumed.
   */
  lemma PriorAnswerFollowsLookup(hash: Hash, st: Store, source: string, target: string, folder: string)
    ensures
      var lk := LookupDecision(hash, st.matrix, source, target, folder);
      var r := LookupPriorAuthorization(hash, st, source, target, folder);
      && r.fingerprint == lk.fingerprint
      && (r.response.Some? <==> lk.decision.Some? && !IsOnetime(lk.decision.value.response))
      && (lk.decision.Some? && IsOnetime(lk.decision.value.response) ==> Get(r.store.matrix, r.fingerprint).None?)
  {
  }

  /** The fingerprint of a newly recorded decision, and the new store. */
  datatype Recorded = Recorded(fingerprint: string, store: Store)

  /**
   * Records a response. A BLOCK is stored as a DENY_ALWAYS for the root
   * folder of the machine pair; any other response is stored as given.
   * The decision goes under the fingerprint of its own triple, no other
   * key changes, and the policy files are re-synchronised.
   */
  function ProcessAuthorizationRequest(hash: Hash, st: Store, source: string, target: string, folder: string,
                                       response: Response): (r: Recorded)
    ensures IsBlock(response) ==>
      Get(r.store.matrix, r.fingerprint) == Some(Decision(source, target, Root, DenyAlways))
    ensures !IsBlock(response) ==>
      Get(r.store.matrix, r.fingerprint) == Some(Decision(source, target, folder, response))
    ensures Get(r.store.matrix, r.fingerprint).Some? &&
      var d := Get(r.store.matrix, r.fingerprint).value;
      r.fingerprint == FingerprintDecision(hash, d.source, d.target, d.folder)
    ensures forall k :: k != r.fingerprint ==> Get(r.store.matrix, k) == Get(st.matrix, k)
    ensures PolicyConsistent(r.store)
    ensures forall k :: k in r.store.policy && k in st.policy ==> r.store.policy[k] == st.policy[k]
    ensures IsAllow(response) && r.fingerprint !in st.policy ==>
      r.fingerprint in r.store.policy && r.store.policy[r.fingerprint] == PolicyLine(source, target)
    ensures NoBlock(st.matrix) ==> NoBlock(r.store.matrix)
    ensures WellFormed(hash, st.matrix) && (HasAbsoluteShape(folder) || IsBlock(response)) ==>
      WellFormed(hash, r.store.matrix)
  {
    var (folder', response') := if IsBlock(response) then (Root, DenyAlways) else (folder, response);
    var fp := FingerprintDecision(hash, source, target, folder');
    var d := Decision(source, target, folder', response');
    var m := Put(st.matrix, fp, d);
    assert forall k :: Get(m, k) == if k == fp then Some(d) else Get(st.matrix, k) by {
      forall k ensures Get(m, k) == if k == fp then Some(d) else Get(st.matrix, k) {
        GetPut(st.matrix, fp, d, k);
      }
    }
    assert forall e :: e in m ==> e == Entry(fp, d) || e in st.matrix by {
      forall e | e in m ensures e == Entry(fp, d) || e in st.matrix {
        GetIff(m, e.fingerprint, e.decision);
        if e.fingerprint != fp {
          GetIff(st.matrix, e.fingerprint, e.decision);
        }
      }
    }
    Recorded(fp, Store(m, ApplyPolicyChangesFrom(m, st.policy)))
  }

  /** The folder the connection may use, and the new store. */
  datatype FolderCheck = FolderCheck(folder: Option<string>, store: Store)

  /**
   * The receiving side's check for an established connection: the folder
   * stored under the fingerprint is returned exactly when it contains the
   * requested folder. A one-time decision under that key is consumed by
   * the check, yet still answers it.
   */
  function LookupDecisionFolder(st: Store, fp: string, requestedFolder: string): (r: FolderCheck)
    ensures r.folder.Some? <==>
      Get(st.matrix, fp).Some? && Contains(requestedFolder, Get(st.matrix, fp).value.folder)
    ensures r.folder.Some? ==> r.folder.value == Get(st.matrix, fp).value.folder
    ensures Get(st.matrix, fp).Some? && IsOnetime(Get(st.matrix, fp).value.response) ==>
      Get(r.store.matrix, fp).None?
    ensures (Get(st.matrix, fp).None? || !IsOnetime(Get(st.matrix, fp).value.response)) ==> r.store == st
    ensures forall k :: k in r.store.policy && k in st.policy ==> r.store.policy[k] == st.policy[k]
    ensures forall k :: k != fp ==> Get(r.store.matrix, k) == Get(st.matrix, k)
    ensures PolicyConsistent(st) ==> PolicyConsistent(r.store)
  {
    var found := Get(st.matrix, fp);
    var st' := RevokeOnetime(st, fp);
    if found.Some? && Contains(requestedFolder, found.value.folder) then
      FolderCheck(Some(found.value.folder), st')
    else
      FolderCheck(None, st')
  }
}

=== FILE: wrappers.dfy ===
/** Option and Result types used by the model. */
module Wrappers {

  /** An optional value: Python's `Optional[T]`, with `None` for "absent". */
  datatype Option<+T> = None | Some(value: T)

  /** A value or an error: used where the implementation raises an exception. */
  datatype Result<+R, +E> = Success(value: R) | Failure(error: E)
}
